=== FILE: README.md ===
# MyLocations: the current-location controller in Dafny

This project models the location-acquisition logic of the MyLocations iOS app's
`CurrentLocationViewController`. The user taps "Get My Location". The controller
then starts Core Location, keeps the most accurate recent fix, reverse-geocodes it
into an address, and stops in one of five ways:

- the user taps "Stop";
- the accuracy goal (10 m) is reached;
- the position has settled;
- the provider fails;
- 60 s pass without any fix.

It also models which texts `updateLabels` and `configureGetButton` choose for the
state they are called on.

The model is functional. An immutable `Controller.State` record holds the
controller's properties:

- `location`, `updatingLocation` and `lastLocationError`;
- `placemark`, `performingReverseGeocoding` and `lastGeocodingError`;
- the timer;
- whether the location manager's delegate is bound;
- the list of geocode requests whose completion has not run yet.

Each handler is one pure function from state to state. The platform's answers
are parameters: authorization status, the services switch, the clock, distances
between fixes and geocoder results. `Events.Step` delivers one event under the
platform's rules:

- location-manager callbacks arrive only while the delegate is bound;
- the timer fires only while armed;
- a geocode completion arrives for any outstanding request, in any order, even after a stop.

As in the code, a late completion simply overwrites the placemark. So an address
found for an earlier fix, even one from before a restart, can end up shown beside a newer fix.

`Events.Run` folds a sequence of events. Properties over whole event sequences are
lemmas about `Run`.

Modules:

- `Types`: optionals, `NSError`, authorization status, fixes, placemarks, non-empty batches.
- `Controller`: the state and the handlers.
- `Address`: `stringFromPlacemark`, and reading its text back into two lines.
- `Display`: the status message, the address label and the button title.
- `Events`: events, the reachable-state invariant and the sequence properties.

Four behaviours of the code that are easy to misread:

- A tap with authorization `Denied` or `Restricted` only shows an alert. It records no error in the controller.
- The settled-position check compares a *rejected* fix with the kept one. It does not compare two accepted fixes.
- Geocodes are not strictly one at a time. When the final fix has moved (distance > 0), the in-flight flag is cleared first, which forces a second request.
- A `LocationUnknown` failure is recognised by its code alone (0), whatever the error's domain.

## Model

| member | source | states |
|---|---|---|
| Controller.StartLocationManager | MyLocations/CurrentLocationViewController.swift:118-127 | with services disabled nothing changes; otherwise the delegate is bound, updating is on and a non-repeating 60 s timer is armed, with the findings untouched |
| Controller.StopLocationManager | MyLocations/CurrentLocationViewController.swift:129-139 | when not updating nothing changes; otherwise the timer is invalidated, the delegate released and updating off; findings never change |
| Controller.StopIdempotent | MyLocations/CurrentLocationViewController.swift:129-139 | stopping a second time changes nothing |
| Controller.StartStopRoundTrip | MyLocations/CurrentLocationViewController.swift:118-139 | starting a stopped controller and stopping it restores the exact same state |
| Controller.Cleared | MyLocations/CurrentLocationViewController.swift:55-58 | a new acquisition forgets the fix, the placemark and both errors, and nothing else |
| Controller.GetLocation | MyLocations/CurrentLocationViewController.swift:38-64 | a tap when authorization is undetermined, denied or restricted changes nothing; while updating it stops; when idle it clears the findings, then starts |
| Controller.DidTimeOut | MyLocations/CurrentLocationViewController.swift:141-150 | a timeout with a fix changes nothing; without one, updating stops and the error is code 1 in MyLocationsErrorDomain, and the fix, the placemark, the geocoding state and (when not updating) the delegate and timer are kept |
| Controller.DidFailWithError | MyLocations/CurrentLocationViewController.swift:209-222 | a LocationUnknown failure changes nothing; any other error is recorded and updating stops, keeping the fix, the placemark, the geocoding state and (when not updating) the delegate and timer |
| Controller.DistanceFrom | MyLocations/CurrentLocationViewController.swift:238-242 | with no current fix the distance is DBL_MAX, so positive and never "settled"; with one it is the platform's distance |
| Controller.RequestGeocode | MyLocations/CurrentLocationViewController.swift:261-264 | a geocode is requested only when none is in flight, requesting sets the in-flight flag and appends the fix, and no other field changes |
| Controller.DidUpdateLocations | MyLocations/CurrentLocationViewController.swift:224-295 | a stale or negative-accuracy newest fix leaves everything unchanged; a fix is kept iff it is usable and strictly more accurate, and keeping it clears the location error; kept accuracy never worsens; reaching 10 m stops updating, and a kept fix coarser than 10 m leaves the session as it was; the placemark and geocoding error never change; after a kept fix a geocode is in flight; a geocode request is added only if none was in flight, or for the final fix that moved; a rejected fix changes nothing unless under 1 m away and over 10 s newer, which stops updating |
| Controller.ChosenPlacemark | MyLocations/CurrentLocationViewController.swift:273-279 | a placemark is kept iff there is no error and the answer is non-empty, and it is the answer's last one |
| Controller.CompleteGeocode | MyLocations/CurrentLocationViewController.swift:269-283 | the completion records the geocoding error and the chosen placemark, clears the in-flight flag, retires exactly its own request keeping the order of the other requests, and leaves the session alone |
| Address.StringFromPlacemark | MyLocations/CurrentLocationViewController.swift:160-185 | the text is exactly as long as the present fields plus a space after house number, city and state plus one line break, which sits right after the street line; it starts with the house number, ends with the postal code, and is a lone line break when no field is present |
| Address.AddressReadsBack | MyLocations/CurrentLocationViewController.swift:160-185 | splitting the address text at its first line break gives back the street line and the city line |
| Display.StatusMessage | MyLocations/CurrentLocationViewController.swift:99-114 | five branches, four texts: each text is chosen exactly under its conditions, in the order denied error, other error, services disabled, updating, idle ("Location Services Disabled" serves both the denied error and disabled services) |
| Display.AddressText | MyLocations/CurrentLocationViewController.swift:79-96 | without a fix the label is blank; with one it shows the placemark, else "Searching for Address..." while geocoding, else "No Address Found" after a geocoding error, else it is left as it was |
| Display.MessageText | MyLocations/CurrentLocationViewController.swift:79-115 | the message label is empty exactly when there is a fix, and shows the status message otherwise |
| Display.GetButtonTitle | MyLocations/CurrentLocationViewController.swift:152-158 | the title is "Stop" iff updating, "Get My Location" iff not |
| Display.TapFromIdleMessage | MyLocations/CurrentLocationViewController.swift:38-64 | after an authorized tap from idle the screen says "Searching..." with a Stop button, or "Location Services Disabled" when services are off |
| Display.TimeoutMessage | MyLocations/CurrentLocationViewController.swift:141-150 | after a timeout without a fix the screen says "Error Getting Location" and offers "Get My Location" |
| Display.FailureMessage | MyLocations/CurrentLocationViewController.swift:209-222 | a failure other than LocationUnknown before any fix shows "Location Services Disabled" exactly for Core Location's Denied error, else "Error Getting Location" |
| Events.Step | MyLocations/CurrentLocationViewController.swift:118-139 | a tap runs the button handler; update and failure callbacks run only while the delegate is bound; the non-repeating timer is spent when it fires, and an armed firing runs the timeout handler, which changes nothing else when there is a fix; a completion runs only for an outstanding request |
| Events.StepPreservesInv | MyLocations/CurrentLocationViewController.swift:118-139 | every event keeps the invariant: delegate bound iff updating; only the one-shot 60 s timer of a running session armed; in-flight flag only with a request outstanding; kept fix has valid accuracy |
| Events.RunPreservesInv | MyLocations/CurrentLocationViewController.swift:118-139 | the invariant holds after any sequence of events |
| Events.ReachableInv | MyLocations/CurrentLocationViewController.swift:118-139 | every state reachable from the freshly loaded screen satisfies the invariant |
| Events.AccuracyNeverIncreases | MyLocations/CurrentLocationViewController.swift:246-248 | until the next tap, a kept fix is never lost and its accuracy radius never grows |
| Events.FrozenUntilTap | MyLocations/CurrentLocationViewController.swift:129-139 | once stopped, no fix is accepted and updating does not resume until a tap |
| Events.AccurateFixIsFinal | MyLocations/CurrentLocationViewController.swift:251-254 | a kept fix at or under 10 m stops updating and remains the answer until a tap |
| Events.StepWithinBudget | MyLocations/CurrentLocationViewController.swift:256-264 | no event other than a tap or a completion raises outstanding requests plus remaining budget |
| Events.GeocodeRequestsBounded | MyLocations/CurrentLocationViewController.swift:256-264 | between completions and taps, at most two geocodes are requested, at most one when one is already in flight |
| Events.DeniedTapStartsNothing | MyLocations/CurrentLocationViewController.swift:47-50 | a tap with denied or restricted authorization leaves the controller as it was, binding no delegate |
| Events.ThreeFixScenario | MyLocations/CurrentLocationViewController.swift:246-264 | fixes of 50 m, 30 m, 10 m: the first two are kept while updating continues, the third stops updating, and the 50 m and 10 m fixes are geocoded |
| Events.TimeoutScenario | MyLocations/CurrentLocationViewController.swift:141-150 | a start followed by the timer firing stops with no fix and the code-1 MyLocationsErrorDomain error |

## Left out

- Label, outlet and button assignments are left out. The model states only which text is chosen. The `%.8f` coordinate formatting is also left out, since it is floating-point formatting.
- The alert of `showLocationServicesDeniedAlert` is left out, as is the authorization request made for `NotDetermined`. Both are platform effects that do not change the controller.
- `viewDidLoad`, `didReceiveMemoryWarning`, `prepareForSegue` and `print` logging are left out. They are presentation only.
- `distanceFromLocation` (great-circle maths) is not modelled. The platform's distance is an input of the update event.
- `timeIntervalSinceNow` needs the clock, which becomes the event's `now` input. The time between two fixes is the difference of their timestamps.
- Accuracies, distances and timestamps (`Double` and `NSDate` in the code) are exact reals. So there is no NaN or infinity, and the subtractions at lines 228 and 286 of MyLocations/CurrentLocationViewController.swift are exact, with no rounding.
- NSTimer scheduling is not modelled. The timer is an armed/disarmed value, and the 60 s wait is the `TimerFired` event.
- `locationManager.desiredAccuracy` is the constant 10 m. The delegate is bound only by the start, which sets that accuracy, so updates never see another value.
- An empty location batch would trap on `locations.last!`. The model's batch type is non-empty instead.
- MyLocations/LocationDetailsViewController.swift is left out. Its `done` and `cancel` only dismiss the screen.
- The address label can lag one step behind the controller state after an accepted fix. The update handler refreshes the labels right after taking the fix, before the in-flight flag is cleared or a geocode is requested, and nothing refreshes them afterwards. The `Display` functions give the texts for whatever state the refresh runs on; they do not track when refreshes happen.
- Display.AddressText: "left as it was" is returned as `None`. The earlier label text is not tracked.

=== FILE: address.dfy ===
/** `stringFromPlacemark`: the two-line address shown under the coordinates,
    and the reading of such a text back into its two lines. */
module Address {
  import opened Types

  /** One optional field followed by `separator`, or nothing when the field is absent. */
  function Part(field: Option<string>, separator: string): (r: string)
  {
    match field
    case Some(v) => v + separator
    case None => ""
  }

  /** The number of characters `Part(field, separator)` contributes. */
  function Width(field: Option<string>, separator: string): (n: nat)
  {
    if field.Some? then |field.value| + |separator| else 0
  }

  /** The street line: house number and a space, then the street. */
  function StreetLine(p: Placemark): (r: string)
  {
    Part(p.subThoroughfare, " ") + Part(p.thoroughfare, "")
  }

  /** The city line: city and a space, state and a space, then the postal code. */
  function CityLine(p: Placemark): (r: string)
  {
    Part(p.locality, " ") + Part(p.administrativeArea, " ") + Part(p.postalCode, "")
  }

  /** No address field is present. */
  predicate NoFields(p: Placemark)
  {
    && p.subThoroughfare.None? && p.thoroughfare.None?
    && p.locality.None? && p.administrativeArea.None? && p.postalCode.None?
  }

  /** A field that, when present, holds no line break. */
  predicate SingleLine(field: Option<string>)
  {
    field.Some? ==> '\n' !in field.value
  }

  /** `stringFromPlacemark`. */
  function StringFromPlacemark(p: Placemark): (r: string)
    // every present field is shown, with one space after the house number,
    // the city and the state, and one line break between the two lines
    ensures |r| == Width(p.subThoroughfare, " ") + Width(p.thoroughfare, "") + 1
                   + Width(p.locality, " ") + Width(p.administrativeArea, " ") + Width(p.postalCode, "")
    ensures r[Width(p.subThoroughfare, " ") + Width(p.thoroughfare, "")] == '\n'
    ensures '\n' in r
    ensures p.subThoroughfare.Some? ==> p.subThoroughfare.value + " " <= r
    ensures p.subThoroughfare.None? && p.thoroughfare.Some? ==> p.thoroughfare.value + "\n" <= r
    ensures p.postalCode.Some? ==> r[|r| - |p.postalCode.value|..] == p.postalCode.value
    ensures NoFields(p) ==> r == "\n"
  {
    var line1 := StreetLine(p);
    var line2 := CityLine(p);
    var text := line1 + "\n" + line2;
    assert text[|line1|] == '\n';
    assert p.subThoroughfare.Some? ==> text[..|p.subThoroughfare.value| + 1] == p.subThoroughfare.value + " ";
    assert p.subThoroughfare.None? && p.thoroughfare.Some? ==>
             text[..|p.thoroughfare.value| + 1] == p.thoroughfare.value + "\n";
    text
  }

  /** Reading a text back as two lines: the text before its first line break
      and the text after it; `None` when there is no line break. */
  function SplitAtNewline(text: string): (r: Option<(string, string)>)
    ensures r.Some? ==> text == r.value.0 + "\n" + r.value.1 && '\n' !in r.value.0
    ensures r.None? <==> '\n' !in text
  {
    if |text| == 0 then
      None
    else if text[0] == '\n' then
      assert text == "" + "\n" + text[1..];
      Some(("", text[1..]))
    else
      match SplitAtNewline(text[1..])
      case None => None
      case Some((before, after)) =>
        assert text == [text[0]] + text[1..];
        Some(([text[0]] + before, after))
  }

  /** Splitting at the first line break recovers the two halves of a join
      whose first half has no line break. */
  lemma {:induction false} SplitJoin(a: string, b: string)
    requires '\n' !in a
    ensures SplitAtNewline(a + "\n" + b) == Some((a, b))
  {
    var text := a + "\n" + b;
    if |a| == 0 {
      assert text == "\n" + b;
      assert text[1..] == b;
    } else {
      assert text[0] == a[0];
      assert text[1..] == a[1..] + "\n" + b;
      SplitJoin(a[1..], b);
      assert [a[0]] + a[1..] == a;
    }
  }

  /** The address text reads back as its street line and city line, provided
      the street fields hold no line break. */
  lemma AddressReadsBack(p: Placemark)
    requires SingleLine(p.subThoroughfare) && SingleLine(p.thoroughfare)
    ensures SplitAtNewline(StringFromPlacemark(p)) == Some((StreetLine(p), CityLine(p)))
  {
    assert '\n' !in Part(p.subThoroughfare, " ");
    assert '\n' !in Part(p.thoroughfare, "");
    SplitJoin(StreetLine(p), CityLine(p));
  }
}

=== FILE: controller.dfy ===
/** The location-acquisition state of `CurrentLocationViewController` and one
    pure transition per handler: the Get/Stop tap, starting and stopping the
    location manager, the timeout, the two location-manager delegate callbacks
    and the reverse-geocode completion. */
module Controller {
  import opened Types

  /** `kCLLocationAccuracyNearestTenMeters`, the desired accuracy set when updating starts. */
  const DesiredAccuracy: real := 10.0

  /** Seconds before an acquisition without any fix gives up. */
  const TimeoutInterval: real := 60.0

  /** Fixes whose timestamp lies more than this many seconds in the past are cached, not fresh. */
  const MaxFixAge: real := 5.0

  /** `DBL_MAX`: the distance used when there is no previous fix. */
  const MaxDistance: real := 1.7976931348623157e308

  /** A rejected fix closer than this (metres) to the current one counts as "the same place". */
  const StableDistance: real := 1.0

  /** ... and if it is more than this many seconds newer, updating is forced to stop. */
  const StableInterval: real := 10.0

  /** The `timer` property: a scheduled timer that has neither fired nor been invalidated is armed. */
  datatype Timer = Disarmed | Armed(interval: real, repeats: bool)

  datatype State = State(
    location: Option<Fix>,
    updatingLocation: bool,
    lastLocationError: Option<NSError>,
    placemark: Option<Placemark>,
    performingReverseGeocoding: bool,
    lastGeocodingError: Option<NSError>,
    timer: Timer,
    /** whether `locationManager.delegate` is this controller */
    delegateBound: bool,
    /** the fixes handed to the geocoder whose completion has not run yet, oldest first */
    geocodeRequests: seq<Fix>)

  /** The controller as the screen loads it. */
  const Initial: State := State(None, false, None, None, false, None, Disarmed, false, [])

  /** The fields a session start or stop never touches: what has been found so far. */
  predicate SameFindings(a: State, b: State)
  {
    && a.location == b.location
    && a.lastLocationError == b.lastLocationError
    && a.placemark == b.placemark
    && a.performingReverseGeocoding == b.performingReverseGeocoding
    && a.lastGeocodingError == b.lastGeocodingError
    && a.geocodeRequests == b.geocodeRequests
  }

  /** A running session: delegate bound, updating, and a one-shot timeout armed. */
  predicate Running(s: State)
  {
    s.delegateBound && s.updatingLocation && s.timer == Armed(TimeoutInterval, false)
  }

  /** A stopped session: delegate released, not updating, no timer pending. */
  predicate Stopped(s: State)
  {
    !s.delegateBound && !s.updatingLocation && s.timer == Disarmed
  }

  /** `startLocationManager`: when location services are enabled, bind the
      delegate, start updating and arm a non-repeating 60 s timer; otherwise do nothing. */
  function StartLocationManager(s: State, servicesEnabled: bool): (r: State)
    ensures !servicesEnabled ==> r == s
    ensures servicesEnabled ==> Running(r) && SameFindings(s, r)
  {
    if servicesEnabled then
      s.(delegateBound := true, updatingLocation := true, timer := Armed(TimeoutInterval, false))
    else
      s
  }

  /** `stopLocationManager`: when updating, invalidate the timer, release the
      delegate and stop updating; otherwise do nothing. */
  function StopLocationManager(s: State): (r: State)
    ensures !s.updatingLocation ==> r == s
    ensures s.updatingLocation ==> Stopped(r)
    ensures SameFindings(s, r)
  {
    if s.updatingLocation then
      s.(timer := Disarmed, delegateBound := false, updatingLocation := false)
    else
      s
  }

  /** Stopping twice is stopping once. */
  lemma StopIdempotent(s: State)
    ensures StopLocationManager(StopLocationManager(s)) == StopLocationManager(s)
  {
  }

  /** Starting an idle controller and stopping it again restores it exactly. */
  lemma StartStopRoundTrip(s: State)
    requires Stopped(s)
    ensures StopLocationManager(StartLocationManager(s, true)) == s
  {
  }

  /** Authorization answers for which a tap does nothing to the controller:
      not yet asked (the app asks instead), or refused (the app shows an alert instead). */
  predicate TapIgnored(auth: AuthorizationStatus)
  {
    auth == NotDetermined || auth == Denied || auth == Restricted
  }

  /** The state a fresh acquisition starts from: the previous fix, address and errors forgotten. */
  function Cleared(s: State): (r: State)
    ensures r.location.None? && r.lastLocationError.None?
    ensures r.placemark.None? && r.lastGeocodingError.None?
    ensures r.updatingLocation == s.updatingLocation && r.timer == s.timer
    ensures r.delegateBound == s.delegateBound
    ensures r.performingReverseGeocoding == s.performingReverseGeocoding
    ensures r.geocodeRequests == s.geocodeRequests
  {
    s.(location := None, lastLocationError := None, placemark := None, lastGeocodingError := None)
  }

  /** `getLocation`, the Get/Stop button. */
  function GetLocation(s: State, auth: AuthorizationStatus, servicesEnabled: bool): (r: State)
    ensures TapIgnored(auth) ==> r == s
    ensures !TapIgnored(auth) && s.updatingLocation ==> r == StopLocationManager(s)
    ensures !TapIgnored(auth) && !s.updatingLocation ==>
              r == StartLocationManager(Cleared(s), servicesEnabled)
  {
    if auth == NotDetermined then
      s
    else if auth == Denied || auth == Restricted then
      s
    else if s.updatingLocation then
      StopLocationManager(s)
    else
      StartLocationManager(Cleared(s), servicesEnabled)
  }

  /** The timeout error: code 1 in the app's own domain. */
  const TimeoutError: NSError := NSError(MyLocationsErrorDomain, TimeoutCode)

  /** `didTimeOut`: without a fix, give up and record the timeout error;
      with a fix, nothing happens. */
  function DidTimeOut(s: State): (r: State)
    ensures s.location.Some? ==> r == s
    ensures s.location.None? ==> r.lastLocationError == Some(TimeoutError)
    ensures s.location.None? ==> !r.updatingLocation
    ensures s.location.None? && s.updatingLocation ==> Stopped(r)
    ensures s.location.None? ==> r.location.None? && r.placemark == s.placemark
    ensures s.location.None? ==> r.geocodeRequests == s.geocodeRequests
    ensures SameFindings(s.(lastLocationError := r.lastLocationError), r)
    ensures !s.updatingLocation ==> r.delegateBound == s.delegateBound && r.timer == s.timer
  {
    if s.location.None? then
      StopLocationManager(s).(lastLocationError := Some(TimeoutError))
    else
      s
  }

  /** `locationManager(_:didFailWithError:)`: a transient `LocationUnknown`
      failure is ignored; any other error is recorded and updating stops.
      Only the code is compared, whatever the error's domain. */
  function DidFailWithError(s: State, error: NSError): (r: State)
    ensures error.code == LocationUnknownCode ==> r == s
    ensures error.code != LocationUnknownCode ==>
              && r.lastLocationError == Some(error)
              && !r.updatingLocation
              && (s.updatingLocation ==> Stopped(r))
              && r.location == s.location && r.placemark == s.placemark
              && r.geocodeRequests == s.geocodeRequests
    ensures SameFindings(s.(lastLocationError := r.lastLocationError), r)
    ensures !s.updatingLocation ==> r.delegateBound == s.delegateBound && r.timer == s.timer
  {
    if error.code == LocationUnknownCode then
      s
    else
      StopLocationManager(s.(lastLocationError := Some(error)))
  }

  /** A fix is recent enough: `timestamp.timeIntervalSinceNow` is not below -5. */
  predicate IsRecent(fix: Fix, now: real)
  {
    !(fix.timestamp - now < -MaxFixAge)
  }

  /** A fix the update handler considers at all: recent, with a valid accuracy. */
  predicate Usable(fix: Fix, now: real)
  {
    IsRecent(fix, now) && fix.horizontalAccuracy >= 0.0
  }

  /** A fix replaces the current one when there is none or it is strictly more accurate. */
  predicate Improves(current: Option<Fix>, fix: Fix)
  {
    current.None? || current.value.horizontalAccuracy > fix.horizontalAccuracy
  }

  /** The accuracy goal is met: updating stops. */
  predicate Accurate(fix: Fix)
  {
    fix.horizontalAccuracy <= DesiredAccuracy
  }

  /** The distance the handler works with: the platform's distance to the
      current fix, or `DBL_MAX` when there is no current fix. */
  function DistanceFrom(current: Option<Fix>, distance: real): (d: real)
    ensures current.None? ==> d == MaxDistance
    ensures current.None? ==> d > 0.0 && d >= StableDistance
    ensures current.Some? ==> d == distance
  {
    if current.None? then MaxDistance else distance
  }

  /** A rejected fix that shows the position has settled: under 1 m from the
      current fix and more than 10 s newer. */
  predicate Settled(current: Fix, fix: Fix, distance: real)
  {
    distance < StableDistance && fix.timestamp - current.timestamp > StableInterval
  }

  /** Hand `fix` to the geocoder unless a geocode is already in flight. */
  function RequestGeocode(s: State, fix: Fix): (r: State)
    ensures r.performingReverseGeocoding
    ensures !s.performingReverseGeocoding ==> r.geocodeRequests == s.geocodeRequests + [fix]
    ensures s.performingReverseGeocoding ==> r == s
    ensures r.(performingReverseGeocoding := s.performingReverseGeocoding,
               geocodeRequests := s.geocodeRequests) == s
  {
    if !s.performingReverseGeocoding then
      s.(performingReverseGeocoding := true, geocodeRequests := s.geocodeRequests + [fix])
    else
      s
  }

  /** The accepting branch of the update handler: take the fix, stop once it
      is accurate enough (forgetting an in-flight geocode when the fix moved),
      then geocode if none is in flight. */
  function Accept(s: State, fix: Fix, distance: real): (r: State)
  {
    var accepted := s.(lastLocationError := None, location := Some(fix));
    var finished :=
      if Accurate(fix) then
        var stopped := StopLocationManager(accepted);
        if distance > 0.0 then stopped.(performingReverseGeocoding := false) else stopped
      else
        accepted;
    RequestGeocode(finished, fix)
  }

  /** `locationManager(_:didUpdateLocations:)`. `now` is the clock when the
      batch arrives and `distance` the platform's distance from the newest fix
      to the current one (ignored when there is none). */
  function DidUpdateLocations(s: State, locations: Batch, now: real, distance: real): (r: State)
    // stale or invalid fixes leave everything as it was
    ensures !Usable(Newest(locations), now) ==> r == s
    // acceptance: the fix is usable and improves on the current one
    ensures r.location != s.location ==>
              && r.location == Some(Newest(locations))
              && Usable(Newest(locations), now)
              && Improves(s.location, Newest(locations))
    ensures Usable(Newest(locations), now) && Improves(s.location, Newest(locations)) ==>
              && r.location == Some(Newest(locations))
              && r.lastLocationError.None?
    // the retained accuracy never gets worse
    ensures s.location.Some? ==>
              r.location.Some? && r.location.value.horizontalAccuracy <= s.location.value.horizontalAccuracy
    // reaching the accuracy goal ends updating, and only reaching it does
    ensures Usable(Newest(locations), now) && Improves(s.location, Newest(locations))
            && Accurate(Newest(locations)) && s.updatingLocation ==>
              Stopped(r)
    ensures Usable(Newest(locations), now) && Improves(s.location, Newest(locations))
            && !Accurate(Newest(locations)) ==>
              && r.updatingLocation == s.updatingLocation
              && r.timer == s.timer
              && r.delegateBound == s.delegateBound
    ensures Usable(Newest(locations), now) && Improves(s.location, Newest(locations))
            && !s.updatingLocation ==>
              r.delegateBound == s.delegateBound && r.timer == s.timer && !r.updatingLocation
    // the address found so far is kept; after accepting, a geocode is in flight
    ensures r.placemark == s.placemark && r.lastGeocodingError == s.lastGeocodingError
    ensures Usable(Newest(locations), now) && Improves(s.location, Newest(locations)) ==>
              r.performingReverseGeocoding
    // a fix is geocoded only if no geocode is in flight, or it is the final
    // fix and it moved; asking sets the in-flight flag
    ensures r.geocodeRequests == s.geocodeRequests
            || r.geocodeRequests == s.geocodeRequests + [Newest(locations)]
    ensures r.geocodeRequests != s.geocodeRequests ==>
              && r.performingReverseGeocoding
              && (|| !s.performingReverseGeocoding
                  || (Accurate(Newest(locations)) && DistanceFrom(s.location, distance) > 0.0))
    // an accepted fix is geocoded when none is in flight, and the final fix
    // is geocoded whenever it moved (always, when it is the first fix)
    ensures Usable(Newest(locations), now) && Improves(s.location, Newest(locations))
            && (|| !s.performingReverseGeocoding
                || (Accurate(Newest(locations)) && DistanceFrom(s.location, distance) > 0.0)) ==>
              r.geocodeRequests == s.geocodeRequests + [Newest(locations)]
    // a rejected fix changes nothing, except that a settled position stops updating
    ensures s.location.Some? && Usable(Newest(locations), now) && !Improves(s.location, Newest(locations)) ==>
              if Settled(s.location.value, Newest(locations), distance)
              then r == StopLocationManager(s)
              else r == s
  {
    var fix := Newest(locations);
    if fix.timestamp - now < -MaxFixAge then
      s
    else if fix.horizontalAccuracy < 0.0 then
      s
    else
      var d := DistanceFrom(s.location, distance);
      if s.location.None? || s.location.value.horizontalAccuracy > fix.horizontalAccuracy then
        Accept(s, fix, d)
      else if d < StableDistance then
        if fix.timestamp - s.location.value.timestamp > StableInterval then
          StopLocationManager(s)
        else
          s
      else
        s
  }

  /** The placemark a geocode completion keeps: the last one of a non-empty
      answer without error, none otherwise. */
  function ChosenPlacemark(error: Option<NSError>, placemarks: Option<seq<Placemark>>): (p: Option<Placemark>)
    ensures p.Some? <==> error.None? && placemarks.Some? && |placemarks.value| > 0
    ensures p.Some? ==> p.value == placemarks.value[|placemarks.value| - 1]
  {
    if error.None? && placemarks.Some? && |placemarks.value| > 0 then
      Some(placemarks.value[|placemarks.value| - 1])
    else
      None
  }

  /** The completion closure of request number `k` (of those outstanding):
      record the geocoding error, keep the chosen placemark, and clear the in-flight flag. */
  function CompleteGeocode(s: State, k: nat, error: Option<NSError>, placemarks: Option<seq<Placemark>>): (r: State)
    requires k < |s.geocodeRequests|
    ensures r.lastGeocodingError == error
    ensures r.placemark == ChosenPlacemark(error, placemarks)
    ensures !r.performingReverseGeocoding
    ensures r.geocodeRequests == s.geocodeRequests[..k] + s.geocodeRequests[k + 1..]
    ensures multiset(r.geocodeRequests) + multiset{s.geocodeRequests[k]} == multiset(s.geocodeRequests)
    ensures r.location == s.location && r.lastLocationError == s.lastLocationError
    ensures r.updatingLocation == s.updatingLocation && r.timer == s.timer
    ensures r.delegateBound == s.delegateBound
  {
    var rest := s.geocodeRequests[..k] + s.geocodeRequests[k + 1..];
    assert s.geocodeRequests == s.geocodeRequests[..k] + [s.geocodeRequests[k]] + s.geocodeRequests[k + 1..];
    s.(lastGeocodingError := error,
       placemark := ChosenPlacemark(error, placemarks),
       performingReverseGeocoding := false,
       geocodeRequests := rest)
  }
}

=== FILE: display.dfy ===
/** Which texts `updateLabels` and `configureGetButton` choose for the
    message label, the address label and the Get/Stop button. */
module Display {
  import opened Types
  import opened Controller
  import opened Address

  const LocationServicesDisabled: string := "Location Services Disabled"
  const ErrorGettingLocation: string := "Error Getting Location"
  const Searching: string := "Searching..."
  const TapToStart: string := "Tap 'Get My Location' to Start"
  const SearchingForAddress: string := "Searching for Address..."
  const NoAddressFound: string := "No Address Found"
  const StopTitle: string := "Stop"
  const GetTitle: string := "Get My Location"

  /** The user refused location services: `CLError.Denied` in Core Location's domain. */
  predicate IsDeniedError(e: NSError)
  {
    e.domain == CoreLocationErrorDomain && e.code == DeniedCode
  }

  /** The status message shown while there is no fix. */
  function StatusMessage(lastLocationError: Option<NSError>, servicesEnabled: bool, updating: bool): (m: string)
    ensures m == LocationServicesDisabled <==>
              || (lastLocationError.Some? && IsDeniedError(lastLocationError.value))
              || (lastLocationError.None? && !servicesEnabled)
    ensures m == ErrorGettingLocation <==>
              lastLocationError.Some? && !IsDeniedError(lastLocationError.value)
    ensures m == Searching <==> lastLocationError.None? && servicesEnabled && updating
    ensures m == TapToStart <==> lastLocationError.None? && servicesEnabled && !updating
  {
    if lastLocationError.Some? then
      if IsDeniedError(lastLocationError.value) then LocationServicesDisabled else ErrorGettingLocation
    else if !servicesEnabled then
      LocationServicesDisabled
    else if updating then
      Searching
    else
      TapToStart
  }

  /** The message label: empty once there is a fix, the status message before. */
  function MessageText(s: State, servicesEnabled: bool): (m: string)
    ensures m == "" <==> s.location.Some?
    ensures s.location.None? ==> m == StatusMessage(s.lastLocationError, servicesEnabled, s.updatingLocation)
  {
    if s.location.Some? then "" else StatusMessage(s.lastLocationError, servicesEnabled, s.updatingLocation)
  }

  /** The address label; `None` when `updateLabels` leaves it as it was. */
  function AddressText(s: State): (t: Option<string>)
    ensures s.location.None? ==> t == Some("")
    ensures s.location.Some? && s.placemark.Some? ==> t == Some(StringFromPlacemark(s.placemark.value))
    ensures t == Some(SearchingForAddress) <==>
              s.location.Some? && s.placemark.None? && s.performingReverseGeocoding
    ensures t == Some(NoAddressFound) <==>
              && s.location.Some? && s.placemark.None? && !s.performingReverseGeocoding
              && s.lastGeocodingError.Some?
    ensures t.None? <==>
              && s.location.Some? && s.placemark.None? && !s.performingReverseGeocoding
              && s.lastGeocodingError.None?
  {
    if s.location.Some? then
      if s.placemark.Some? then
        var address := StringFromPlacemark(s.placemark.value);
        assert address != SearchingForAddress && address != NoAddressFound by {
          assert '\n' !in SearchingForAddress && '\n' !in NoAddressFound;
        }
        Some(address)
      else if s.performingReverseGeocoding then
        assert |SearchingForAddress| != |NoAddressFound|;
        Some(SearchingForAddress)
      else if s.lastGeocodingError.Some? then
        Some(NoAddressFound)
      else
        None
    else
      Some("")
  }

  /** `configureGetButton`. */
  function GetButtonTitle(s: State): (t: string)
    ensures t == StopTitle <==> s.updatingLocation
    ensures t == GetTitle <==> !s.updatingLocation
  {
    if s.updatingLocation then StopTitle else GetTitle
  }

  /** An authorized tap from idle with services enabled shows "Searching..."
      and a Stop button; with services disabled it shows "Location Services Disabled". */
  lemma TapFromIdleMessage(s: State, auth: AuthorizationStatus, servicesEnabled: bool)
    requires !TapIgnored(auth) && !s.updatingLocation
    ensures MessageText(GetLocation(s, auth, servicesEnabled), servicesEnabled)
            == (if servicesEnabled then Searching else LocationServicesDisabled)
    ensures GetButtonTitle(GetLocation(s, auth, servicesEnabled)) == (if servicesEnabled then StopTitle else GetTitle)
  {
  }

  /** A timeout without a fix shows "Error Getting Location": its error is
      not Core Location's `Denied`, although it has the same code. */
  lemma TimeoutMessage(s: State, servicesEnabled: bool)
    requires s.location.None?
    ensures MessageText(DidTimeOut(s), servicesEnabled) == ErrorGettingLocation
    ensures GetButtonTitle(DidTimeOut(s)) == GetTitle
  {
  }

  /** A provider failure other than `LocationUnknown` before any fix shows
      "Location Services Disabled" exactly when it is Core Location's `Denied`,
      otherwise "Error Getting Location". */
  lemma FailureMessage(s: State, error: NSError, servicesEnabled: bool)
    requires s.location.None? && error.code != LocationUnknownCode
    ensures MessageText(DidFailWithError(s, error), servicesEnabled)
            == (if IsDeniedError(error) then LocationServicesDisabled else ErrorGettingLocation)
  {
  }
}

=== FILE: events.dfy ===
/** The controller driven by a sequence of platform events, and the
    properties that hold over every such sequence. */
module Events {
  import opened Types
  import opened Controller

  /** What can happen to the screen. */
  datatype Event =
    /** the Get/Stop button, with the authorization status and the services
        switch as the platform reports them at that moment */
    | Tap(auth: AuthorizationStatus, servicesEnabled: bool)
    /** `didUpdateLocations`; `distance` is the platform's distance from the
        newest fix to the current one */
    | LocationsUpdated(locations: Batch, now: real, distance: real)
    | Failed(error: NSError)
    | TimerFired
    /** the completion of outstanding geocode request number `request` */
    | GeocodeCompleted(request: nat, geocodeError: Option<NSError>, placemarks: Option<seq<Placemark>>)

  /** One event. Location-manager callbacks arrive only while the delegate is
      bound, the timer fires only while armed (and firing spends it), and a
      completion arrives only for a request still outstanding, in any order. */
  function Step(s: State, e: Event): (r: State)
    // callbacks of a released delegate, a spent timer or a finished geocode never arrive
    ensures (e.LocationsUpdated? || e.Failed?) && !s.delegateBound ==> r == s
    ensures e.TimerFired? && !s.timer.Armed? ==> r == s
    ensures e.GeocodeCompleted? && e.request >= |s.geocodeRequests| ==> r == s
    // the timer is one-shot: once it has fired it is no longer armed
    ensures e.TimerFired? ==> r.timer == Disarmed
    ensures e.TimerFired? && s.timer.Armed? ==> r == DidTimeOut(s.(timer := Disarmed))
    ensures e.TimerFired? && s.timer.Armed? && s.location.Some? ==> r == s.(timer := Disarmed)
    // delivered events run their handler
    ensures e.Tap? ==> r == GetLocation(s, e.auth, e.servicesEnabled)
    ensures e.LocationsUpdated? && s.delegateBound ==> r == DidUpdateLocations(s, e.locations, e.now, e.distance)
    ensures e.Failed? && s.delegateBound ==> r == DidFailWithError(s, e.error)
    ensures e.GeocodeCompleted? && e.request < |s.geocodeRequests| ==>
              r == CompleteGeocode(s, e.request, e.geocodeError, e.placemarks)
  {
    match e
    case Tap(auth, enabled) => GetLocation(s, auth, enabled)
    case LocationsUpdated(locations, now, distance) =>
      if s.delegateBound then DidUpdateLocations(s, locations, now, distance) else s
    case Failed(error) => if s.delegateBound then DidFailWithError(s, error) else s
    case TimerFired => if s.timer.Armed? then DidTimeOut(s.(timer := Disarmed)) else s
    case GeocodeCompleted(k, error, placemarks) =>
      if k < |s.geocodeRequests| then CompleteGeocode(s, k, error, placemarks) else s
  }

  function Run(s: State, events: seq<Event>): (r: State)
    decreases |events|
  {
    if |events| == 0 then s else Run(Step(s, events[0]), events[1..])
  }

  /** What holds of every state the controller can reach. */
  predicate Inv(s: State)
  {
    // the delegate is bound exactly while updating
    && s.delegateBound == s.updatingLocation
    // the only timer ever armed is the one-shot timeout of a running session
    && (s.timer.Armed? ==> s.updatingLocation && s.timer == Armed(TimeoutInterval, false))
    // the in-flight flag is set only while some geocode is outstanding
    && (s.performingReverseGeocoding ==> |s.geocodeRequests| > 0)
    // only fixes with a valid accuracy are ever kept
    && (s.location.Some? ==> s.location.value.horizontalAccuracy >= 0.0)
  }

  /** Every event keeps the invariant. */
  lemma StepPreservesInv(s: State, e: Event)
    requires Inv(s)
    ensures Inv(Step(s, e))
  {
  }

  lemma {:induction false} RunPreservesInv(s: State, events: seq<Event>)
    requires Inv(s)
    ensures Inv(Run(s, events))
    decreases |events|
  {
    if |events| > 0 {
      StepPreservesInv(s, events[0]);
      RunPreservesInv(Step(s, events[0]), events[1..]);
    }
  }

  /** Every reachable state satisfies the invariant. */
  lemma ReachableInv(events: seq<Event>)
    ensures Inv(Run(Initial, events))
  {
    RunPreservesInv(Initial, events);
  }

  /** No tap occurs: nothing restarts the acquisition. */
  predicate NoTaps(events: seq<Event>)
  {
    forall i :: 0 <= i < |events| ==> !events[i].Tap?
  }

  /** Neither a tap nor a geocode completion occurs. */
  predicate NoTapsOrCompletions(events: seq<Event>)
  {
    forall i :: 0 <= i < |events| ==> !events[i].Tap? && !events[i].GeocodeCompleted?
  }

  /** Until the next tap, the kept fix is never lost and never gets less accurate. */
  lemma {:induction false} AccuracyNeverIncreases(s: State, events: seq<Event>)
    requires s.location.Some? && NoTaps(events)
    ensures Run(s, events).location.Some?
    ensures Run(s, events).location.value.horizontalAccuracy <= s.location.value.horizontalAccuracy
    decreases |events|
  {
    if |events| > 0 {
      var next := Step(s, events[0]);
      assert next.location.Some? && next.location.value.horizontalAccuracy <= s.location.value.horizontalAccuracy by {
        match events[0]
        case TimerFired =>
          if s.timer.Armed? {
            assert DidTimeOut(s.(timer := Disarmed)) == s.(timer := Disarmed);
          }
        case _ =>
      }
      assert NoTaps(events[1..]) by {
        forall i | 0 <= i < |events[1..]| ensures !events[1..][i].Tap? {
          assert events[1..][i] == events[i + 1];
        }
      }
      AccuracyNeverIncreases(next, events[1..]);
    }
  }

  /** Once updating has stopped, no fix is accepted and updating does not
      resume until the next tap. */
  lemma {:induction false} FrozenUntilTap(s: State, events: seq<Event>)
    requires Inv(s) && !s.updatingLocation && NoTaps(events)
    ensures Run(s, events).location == s.location
    ensures !Run(s, events).updatingLocation && !Run(s, events).delegateBound
    decreases |events|
  {
    if |events| > 0 {
      StepPreservesInv(s, events[0]);
      var next := Step(s, events[0]);
      assert next.location == s.location && !next.updatingLocation;
      assert NoTaps(events[1..]) by {
        forall i | 0 <= i < |events[1..]| ensures !events[1..][i].Tap? {
          assert events[1..][i] == events[i + 1];
        }
      }
      FrozenUntilTap(next, events[1..]);
    }
  }

  /** A fix that meets the accuracy goal is the final answer: updating stops
      and it stays the kept fix until the next tap. */
  lemma AccurateFixIsFinal(s: State, locations: Batch, now: real, distance: real, rest: seq<Event>)
    requires Inv(s) && s.updatingLocation
    requires Usable(Newest(locations), now) && Improves(s.location, Newest(locations))
    requires Accurate(Newest(locations))
    requires NoTaps(rest)
    ensures Run(s, [LocationsUpdated(locations, now, distance)] + rest).location == Some(Newest(locations))
    ensures !Run(s, [LocationsUpdated(locations, now, distance)] + rest).updatingLocation
  {
    var e := LocationsUpdated(locations, now, distance);
    var events := [e] + rest;
    assert events[0] == e && events[1..] == rest;
    StepPreservesInv(s, e);
    FrozenUntilTap(Step(s, e), rest);
  }

  /** How many more geocode requests can be made before a completion or a tap:
      none once the delegate is released, one while a geocode is in flight
      (the final fix), two otherwise (one now, one for the final fix). */
  function GeocodeBudget(s: State): (n: nat)
    ensures n <= 2
    ensures s.performingReverseGeocoding ==> n <= 1
  {
    if !s.delegateBound then 0 else if s.performingReverseGeocoding then 1 else 2
  }

  /** Apart from taps and completions, each event spends budget for any request it adds. */
  lemma StepWithinBudget(s: State, e: Event)
    requires Inv(s) && !e.Tap? && !e.GeocodeCompleted?
    ensures |Step(s, e).geocodeRequests| + GeocodeBudget(Step(s, e)) <= |s.geocodeRequests| + GeocodeBudget(s)
  {
  }

  /** Geocoding is throttled: between two completions (and with no tap), at
      most two geocodes are requested, and at most one when one is already in
      flight. */
  lemma {:induction false} GeocodeRequestsBounded(s: State, events: seq<Event>)
    requires Inv(s) && NoTapsOrCompletions(events)
    ensures |Run(s, events).geocodeRequests| <= |s.geocodeRequests| + GeocodeBudget(s)
    decreases |events|
  {
    if |events| > 0 {
      StepWithinBudget(s, events[0]);
      StepPreservesInv(s, events[0]);
      var next := Step(s, events[0]);
      assert NoTapsOrCompletions(events[1..]) by {
        forall i | 0 <= i < |events[1..]| ensures !events[1..][i].Tap? && !events[1..][i].GeocodeCompleted? {
          assert events[1..][i] == events[i + 1];
        }
      }
      GeocodeRequestsBounded(next, events[1..]);
    }
  }

  /** With authorization refused or restricted, a tap starts nothing. */
  lemma DeniedTapStartsNothing(s: State, auth: AuthorizationStatus, servicesEnabled: bool)
    requires auth == Denied || auth == Restricted
    ensures Run(s, [Tap(auth, servicesEnabled)]) == s
    ensures !Run(Initial, [Tap(auth, servicesEnabled)]).delegateBound
  {
  }

  /** Starting with fixes of accuracy 50 m, 30 m and 10 m: the first two are
      kept in turn while updating continues, the third ends the search and is the answer. */
  lemma ThreeFixScenario()
    ensures
      var f50 := Fix(41.0, -87.0, 50.0, 100.0);
      var f30 := Fix(41.0, -87.0, 30.0, 101.0);
      var f10 := Fix(41.0, -87.0, 10.0, 102.0);
      var started := Step(Initial, Tap(AuthorizedWhenInUse, true));
      var s1 := Step(started, LocationsUpdated([f50], 100.0, 0.0));
      var s2 := Step(s1, LocationsUpdated([f30], 101.0, 2.0));
      var s3 := Step(s2, LocationsUpdated([f10], 102.0, 3.0));
      && s1.location == Some(f50) && s1.updatingLocation
      && s2.location == Some(f30) && s2.updatingLocation
      && s3.location == Some(f10) && Stopped(s3)
      && s3.geocodeRequests == [f50, f10]
  {
  }

  /** Starting and then hearing nothing for 60 s: updating stops with the timeout error. */
  lemma TimeoutScenario()
    ensures
      var s := Run(Initial, [Tap(AuthorizedAlways, true), TimerFired]);
      && Stopped(s) && s.location.None?
      && s.lastLocationError == Some(NSError(MyLocationsErrorDomain, 1))
  {
  }
}

=== FILE: types.dfy ===
/** Values the location screen receives from the platform: fixes, errors,
    authorization answers and reverse-geocoded placemarks. */
module Types {

  /** Swift's `T?`. */
  datatype Option<+T> = None | Some(value: T)

  /** An `NSError`: only its domain and code are ever inspected. */
  datatype NSError = NSError(domain: string, code: int)

  /** The value of `kCLErrorDomain`. */
  const CoreLocationErrorDomain: string := "kCLErrorDomain"

  /** The domain of the error the controller makes up when acquisition times out. */
  const MyLocationsErrorDomain: string := "MyLocationsErrorDomain"

  /** `CLError.LocationUnknown.rawValue`: a transient failure, the provider keeps trying. */
  const LocationUnknownCode: int := 0

  /** `CLError.Denied.rawValue`: the user refused location services for the app. */
  const DeniedCode: int := 1

  /** The error code of the timeout error. */
  const TimeoutCode: int := 1

  /** `CLAuthorizationStatus`. */
  datatype AuthorizationStatus =
    | NotDetermined
    | Restricted
    | Denied
    | AuthorizedAlways
    | AuthorizedWhenInUse

  /** A `CLLocation`: a coordinate, its horizontal accuracy radius in metres
      (negative when the provider could not estimate it) and its timestamp in seconds. */
  datatype Fix = Fix(latitude: real, longitude: real, horizontalAccuracy: real, timestamp: real)

  /** The address fields of a `CLPlacemark` that the screen displays. */
  datatype Placemark = Placemark(
    subThoroughfare: Option<string>,
    thoroughfare: Option<string>,
    locality: Option<string>,
    administrativeArea: Option<string>,
    postalCode: Option<string>)

  /** A batch of fixes from one `didUpdateLocations` call; the platform never delivers an empty one. */
  type Batch = s: seq<Fix> | |s| > 0 witness [Fix(0.0, 0.0, 0.0, 0.0)]

  /** The most recent fix of a batch, the only one the controller looks at. */
  function Newest(locations: Batch): (fix: Fix)
  {
    locations[|locations| - 1]
  }
}
